=== FILE: README.md ===
# Platformer gameplay core in Dafny

This project models the simulation core of a small side-scrolling platform game written for pgzero. In the game, a player runs and jumps across a 3000-unit world. It lands on platforms, collects coins, stomps or dies to patrolling enemies, and wins when it gets close to the right end of the world. A menu and a settings screen surround the game.

The model is purely functional. One gameplay tick (`handle_gameplay`) is the function `Session.Step(world, input)`. The world is an immutable record holding:

- the player: its box, the offset of its anchor, `vy`, `on_ground`, `can_jump` and the facing flag;
- the enemies, each a box plus a signed speed;
- the coins and the platforms, as boxes;
- the score, the camera offset and the game state.

The application loop (`update` with `handle_menu_input` and `handle_settings_input`) is `Application.Update`. Menu navigation (`on_key_down`) is `Application.KeyDown`. The level layout and the reset (`build_level`, `restart_game`) are `Level.Restart`.

Modules, leaf first:

- `Geometry`: boxes as left, top, width and height, and the strict overlap test. Boxes that only touch do not overlap.
- `Entities`: the game's constants and the records above.
- `PlayerControl`: walking, the jump latch, gravity, landing on platforms, the floor clamp.
- `EnemyControl`: the patrol step and the enemy pass. The pass visits enemies from the last index down, and a kill is tested before a hit. The module also gives a closed form of the pass.
- `CoinCollection`: coin pickup as an order-preserving filter.
- `Session`: the camera, the tick, and runs of ticks.
- `Level`: the level data and the reset.
- `Application`: the menu/settings/playing/game-over/win state machine.

Arithmetic uses Dafny's `real`: gravity 0.5, the volume step 0.1 and the kill bounce `jump_power / 1.5 = -20/3` are exact rationals. Sprite sizes come from images, so they are parameters (`Level.Sizes`). The player's `x` is the left edge of its box plus a fixed anchor offset, which is also a parameter. The vertical anchor needs no parameter, because every vertical update is either a translation or an assignment to `bottom`.

## Behaviour the proofs bring out

- **At most one kill per tick.** A kill sets `vy` to -20/3, which is negative. Any later overlap in the same tick, which means an enemy with a lower index, is therefore a hit. So a tick can score a kill and then end in game over (`EnemyControl.FightMatchesSpec`, `EnemyControl.AtMostOneKill`). A hit leaves the coins and the camera as they were. It does not always leave the score as it was: a kill earlier in the same tick has already added 50.
- **The fall-off test is dead code.** The floor clamp keeps the player's bottom at most 400 (`HEIGHT`; screen y grows downwards). With a positive height, `top > HEIGHT` can never hold, so a tick ends the game only through an enemy hit (`Session.StepOutcome`).
- **`on_ground` survives a restart.** `restart_game` never resets it.
- **No horizontal clamp.** The code never clamps the player horizontally, so neither does the model. The code moves the player by 4 units per tick (`player_speed`).

## Model

| member | source | states |
|---|---|---|
| `PlayerControl.Walk` | platformer.py:181-188 | Left and right apply additively. Holding both leaves x unchanged and faces right. One key alone moves by exactly 4. Nothing but x and facing changes. |
| `PlayerControl.Jump` | platformer.py:189-191 | A jump needs the key, an open latch and the previous tick's grounded flag. Only `vy` and the latch can change, and the latch is never re-opened by this step. |
| `PlayerControl.Land` | platformer.py:197-205 | If any platform passes the landing test, the player ends grounded with the latch open, `vy` 0, standing on some platform: its bottom on that platform's top and the two overlapping horizontally. If none passes, the player is unchanged. Landing never moves the player sideways or down. |
| `PlayerControl.ClampToFloor` | platformer.py:207-212 | Afterwards bottom ≤ HEIGHT. If it clamped, bottom is exactly HEIGHT, `vy` is 0, and the player is grounded with the latch open. Otherwise the player is unchanged. |
| `PlayerControl.Move` | platformer.py:175-212 | After the player's part of the tick: bottom ≤ HEIGHT. Grounded implies latch open, `vy` 0 and the player standing on the floor (bottom = HEIGHT) or on a platform it overlaps horizontally; if no platform passes the landing test and the fall stays above the floor, the player is airborne. The latch re-opens only when grounded. In the air, `vy` is the previous speed (or the jump power) plus one gravity step, and the box has moved down by exactly that new `vy` (and sideways as `Walk` says). |
| `PlayerControl.JumpTakesOff` | platformer.py:189-205 | A jump from within the screen leaves the player airborne with the latch closed and `vy` equal to jump power plus gravity. |
| `PlayerControl.JumpNeedsLatchAndGround` | platformer.py:189-191 | Without an open latch and ground contact, the jump key changes nothing in the player's part of the tick. |
| `PlayerControl.LandingSnapsOnTop` | platformer.py:198-205 | A shallow landing on one platform puts the player's bottom exactly on its top, with `vy` 0, grounded, latch open and x unchanged. |
| `PlayerControl.LandsOnOnly` | platformer.py:197-205 | When the player passes the landing test on one platform and touches no other, before or after the snap, the whole landing pass is exactly the snap onto that platform, wherever it sits in the list. |
| `EnemyControl.Patrol` | platformer.py:215-221 | An enemy moves by exactly its speed. The speed is negated when the moved box reaches either world end and kept otherwise, so its magnitude never changes. |
| `EnemyControl.Patrolled` | platformer.py:215-221 | Every enemy takes its patrol step, in the original order. |
| `EnemyControl.Fight` | platformer.py:215-240 | Each removed enemy adds exactly 50 to the score. The player changes only by taking the kill bounce, and only when an enemy was removed. |
| `EnemyControl.LastOverlap` | platformer.py:215-231 | The overlap search in reverse index order yields an index below its bound. |
| `EnemyControl.LastOverlapMeaning` | platformer.py:215-231 | The search finds the highest-index overlapping enemy, and finds none exactly when no enemy overlaps. |
| `EnemyControl.FightMatchesSpec` | platformer.py:215-240 | The pass equals a closed form. No contact: all enemies patrol. The highest-index contact either hits, leaving lower enemies unmoved, or is killed alone. After a kill, the next contact below is a hit. |
| `EnemyControl.AtMostOneKill` | platformer.py:231-237 | At most one enemy is removed per tick, and only while the player is falling. |
| `EnemyControl.NoContactOnlyPatrols` | platformer.py:215-231 | With no contact, the pass only moves enemies. Player, score and outcome are untouched. |
| `EnemyControl.KillBeforeHit` | platformer.py:231-240 | For a touched enemy, a stomp removes it, bounces the player and adds 50. Any other contact is a hit with score and player untouched. |
| `EnemyControl.HitNeedsContact` | platformer.py:231-240 | A hit happens only if the player overlaps some enemy after its patrol step. |
| `CoinCollection.Collect` | platformer.py:243-246 | A coin remains iff it was present and does not overlap the player. Overlapping coins disappear entirely, and every other coin keeps its multiplicity. |
| `CoinCollection.CollectAppend` | platformer.py:243-246 | Pickup distributes over concatenation, so the remaining coins keep their relative order. |
| `CoinCollection.CollectIdempotent` | platformer.py:243-246 | A second pickup with the same box removes nothing: a coin scores at most once. |
| `Session.Camera` | platformer.py:255 | The camera lies in [0, WORLD_LENGTH − WIDTH]. It is x − WIDTH//2 when that is in range, and otherwise 0 or the maximum. |
| `Session.Step` | platformer.py:167-255 | Escape only switches to the menu. Platforms never change. Score = old score + 50 per removed enemy + 10 per removed coin, so it never decreases. The latch re-opens only when grounded, and a grounded player stands on the floor or on a platform it overlaps horizontally. Unless escape or a hit ends the tick, the camera is the clamp of the player's final x. |
| `Session.StepOutcome` | platformer.py:208-252 | While playing, the next state is: menu on escape, else game over on a hit, else win when x ≥ WORLD_LENGTH − 100, else playing. The player's top stays above the screen bottom, so the fall-off test never fires. |
| `Session.HitEndsTick` | platformer.py:231-240 | On a hit, the state becomes game over, coins and camera are unchanged, and some moved enemy overlaps the player. |
| `Session.CoinsPicked` | platformer.py:243-246 | Without a hit, exactly the coins overlapping the player's final box are removed. |
| `Session.CameraStaysInWorld` | platformer.py:255 | A tick keeps the camera in [0, WORLD_LENGTH − WIDTH]. |
| `Session.JumpIgnoredUnlessGrounded` | platformer.py:189-191 | Without an open latch and ground contact, a whole tick is the same with or without the jump key. |
| `Session.RunScoreMonotone` | platformer.py:237-246 | Over any sequence of ticks, the score never decreases. |
| `Session.AirborneJumpsIgnored` | platformer.py:189-212 | No double jump: while the player stays airborne with the latch closed, a run with jump presses equals the run without them. |
| `Level.Place` | platformer.py:70-83 | Each platform or coin gets a box at its listed top-left corner, in list order. |
| `Level.Ground` | platformer.py:65-67 | 100 floor tiles, tile i at x = 32·i with top 370 and the ground sprite's size. |
| `Level.Enemies` | platformer.py:102-112 | Three enemies with top-left corners (800, 360), (1500, 360) and (2300, 360), the enemy sprite's size, and speeds 2, −2 and 1.5. Enemy and speed lists agree by construction. |
| `Level.Restart` | platformer.py:86-116 | Score and camera are 0. The player is at x 80 with bottom 370 and the sprite's anchor offset and size, `vy` 0, latch open and facing right. Platforms, coins and enemies are the freshly built level (`Level.Platforms`, `Level.Coins`, `Level.Enemies`), whatever the old world held: 108 platforms, 7 coins and 3 enemies. `on_ground` and the game state are left as they were. |
| `Level.RestartForgetsRun` | platformer.py:86-116 | Nothing of a run except `on_ground` and the game state survives a reset, so resetting twice is resetting once. |
| `Level.SpawnOnGroundLevel` | platformer.py:67-91 | The player appears with its bottom on the top of the floor tiles. |
| `Application.Wrap` | platformer.py:279-286 | The cursor stays in [0, n). An in-range value is kept, −1 wraps to n − 1, and n wraps to 0. |
| `Application.KeyDown` | platformer.py:275-286 | Down moves the cursor of the screen shown to the next entry, wrapping from the last to the first; Up moves to the previous one, wrapping from the first to the last. Cursors stay in range, the other cursor and everything else are unchanged, and any other key changes nothing. |
| `Application.UpDownRoundTrip` | platformer.py:279-286 | Up followed by down, or down followed by up, returns the original cursor. |
| `Application.MenuCycles` | platformer.py:279-286 | Three presses of the same key return the original cursor. |
| `Application.Initial` | platformer.py:10-58 | The start-up state is in the menu, not grounded, and well formed. The volume is 0.5, the controls are the arrow keys, both cursors are on their first entry, and the world is the one `restart_game` builds at start-up: score and camera 0, the player at x 80 with bottom 370, at rest with the latch open, and platforms, coins and enemies of the built level. |
| `Application.ChooseSetting` | platformer.py:151-162 | Volume up or down moves by 0.1, and is clamped to 1 or 0 only when the step would leave [0, 1]. The third entry toggles the control scheme and leaves the volume alone; the volume entries leave the scheme alone. Nothing else changes. |
| `Application.SettingsRoundTrips` | platformer.py:155-162 | In exact arithmetic, volume up then volume down restores the volume away from the top of the range; toggling the controls twice restores them. |
| `Application.Update` | platformer.py:369-384 | A frame exits exactly when Quit is confirmed in the menu. Every other frame keeps the program state well formed: cursors in range, volume in [0, 1], camera in the world. |
| `Application.Transitions` | platformer.py:138-164 | The state machine's table. Menu goes to playing or settings on enter. Settings goes to menu on escape or space. Playing goes as in `Session.StepOutcome`. Game over and win go to menu on space. |
| `Application.StartIsFresh` | platformer.py:140-144 | Starting a game from the menu gives a run with score 0 and the level's full coin and enemy lists. |

## Left out

- Drawing (`draw`, `draw_menu`, `draw_settings`, `draw_game`, `draw_background`): rendering only, with no effect on the state.
- Music (`start_music`, `music.set_volume`): foreign audio calls. Only the volume value and its clamp are kept.
- `sys.exit` is the `Exit` result of `Application.Update`. `pgzrun.go` is process plumbing.
- Keyboard polling and the arrow/WASD mapping: input is abstract booleans, already mapped. `use_wasd` is kept as a flag that only the settings screen toggles.
- Animation frame timers, the player's idle/run/jump state and the image names with the `_left` suffix: they only select sprites. All frames of a sprite are assumed to have the same size, so a change of image never changes a collision box.
- The menu's background scroll (`menu_camera_x`): cosmetic.
- Sprite pixel sizes, `scale = 3` and the exact pgzero reading of the anchor `(0.5, 1)`: they depend on images and on the pgzero `Actor`. They are parameters (`Level.Sizes`, `Player.anchorDx`).
- Floating-point rounding: `real` is exact, so values such as 0.1 and −20/3 carry no rounding error.
- `Application.Update`: requires `WellFormed`, the invariant of every reachable state (cursors in range, volume in [0, 1], positive sprite sizes, camera in the world). The source would index its option lists out of range with a bad cursor; `Application.Initial`, `Application.KeyDown` and `Application.Update` itself establish and keep the invariant.

=== FILE: application.dfy ===
/** The application state machine (`update`, `handle_menu_input`,
    `handle_settings_input`) and menu navigation (`on_key_down`). */
module Application {
  import opened Geometry
  import opened Entities
  import opened Level
  import opened Session

  /** "Start game", "Settings", "Quit". */
  const MenuOptionCount: int := 3
  const StartOption: int := 0
  const SettingsOption: int := 1
  const QuitOption: int := 2

  /** "Volume +", "Volume -", "Switch controls (arrows/WASD)". */
  const SettingsOptionCount: int := 3
  const VolumeUpSetting: int := 0
  const VolumeDownSetting: int := 1
  const ToggleControlsSetting: int := 2

  const StartVolume: real := 0.5
  const VolumeStep: real := 0.1

  datatype Key = Up | Down | OtherKey

  /** The whole program state: the game world, the sprite sizes, the menu
      cursors and the settings. */
  datatype App = App(
    world: World,
    sizes: Sizes,
    selectedOption: int,
    selectedSetting: int,
    volume: real,
    useWasd: bool)

  /** The result of one frame: the program goes on, or "Quit" was chosen. */
  datatype Tick = Running(app: App) | Exit

  /** What holds of every reachable state: the cursors point at an option,
      the volume is a fraction, the player has a positive size and the
      camera is inside the world. */
  predicate WellFormed(a: App) {
    && ValidSizes(a.sizes)
    && 0 <= a.selectedOption < MenuOptionCount
    && 0 <= a.selectedSetting < SettingsOptionCount
    && 0.0 <= a.volume <= 1.0
    && a.world.player.box.width == a.sizes.playerWidth
    && a.world.player.box.height == a.sizes.playerHeight
    && 0.0 <= a.world.cameraX <= MaxCamera
  }

  /** Python's `i % n` for a positive `n`. */
  function Wrap(i: int, n: int): (r: int)
    requires n > 0
    ensures 0 <= r < n
    ensures 0 <= i < n ==> r == i
    ensures i == -1 ==> r == n - 1
    ensures i == n ==> r == 0
  {
    i % n
  }

  /** `on_key_down`: up and down move the cursor of the menu on screen,
      wrapping around at either end. */
  function KeyDown(a: App, key: Key): (r: App)
    ensures WellFormed(a) ==> WellFormed(r)
    ensures r.world == a.world && r.sizes == a.sizes && r.volume == a.volume && r.useWasd == a.useWasd
    ensures a.world.gameState != Settings ==> r.selectedSetting == a.selectedSetting
    ensures a.world.gameState != Menu ==> r.selectedOption == a.selectedOption
    ensures key == OtherKey ==> r == a
    // The cursor on screen steps by one and wraps around at either end.
    ensures a.world.gameState == Menu && 0 <= a.selectedOption < MenuOptionCount && key == Down ==>
              r.selectedOption == (if a.selectedOption == MenuOptionCount - 1 then 0 else a.selectedOption + 1)
    ensures a.world.gameState == Menu && 0 <= a.selectedOption < MenuOptionCount && key == Up ==>
              r.selectedOption == (if a.selectedOption == 0 then MenuOptionCount - 1 else a.selectedOption - 1)
    ensures a.world.gameState == Settings && 0 <= a.selectedSetting < SettingsOptionCount && key == Down ==>
              r.selectedSetting == (if a.selectedSetting == SettingsOptionCount - 1 then 0 else a.selectedSetting + 1)
    ensures a.world.gameState == Settings && 0 <= a.selectedSetting < SettingsOptionCount && key == Up ==>
              r.selectedSetting == (if a.selectedSetting == 0 then SettingsOptionCount - 1 else a.selectedSetting - 1)
  {
    if key == OtherKey then a
    else
      var delta := if key == Up then -1 else 1;
      match a.world.gameState
      case Menu => a.(selectedOption := Wrap(a.selectedOption + delta, MenuOptionCount))
      case Settings => a.(selectedSetting := Wrap(a.selectedSetting + delta, SettingsOptionCount))
      case _ => a
  }

  /** Up then down, or down then up, puts the cursor back where it was. */
  lemma UpDownRoundTrip(a: App)
    requires WellFormed(a)
    ensures KeyDown(KeyDown(a, Up), Down) == a
    ensures KeyDown(KeyDown(a, Down), Up) == a
  {
  }

  /** The menu cursor cycles: three presses of the same key come back. */
  lemma MenuCycles(a: App, key: Key)
    requires WellFormed(a)
    ensures KeyDown(KeyDown(KeyDown(a, key), key), key) == a
  {
  }

  /** The program state at start-up: `restart_game` runs once on the
      initial globals, in the menu, with the player not yet grounded. */
  function Initial(s: Sizes): (a: App)
    requires ValidSizes(s)
    ensures WellFormed(a)
    ensures a.world.gameState == Menu && !a.world.player.onGround
    ensures a.volume == StartVolume && !a.useWasd
    ensures a.selectedOption == StartOption && a.selectedSetting == VolumeUpSetting
    ensures a.world.score == 0 && a.world.coins == Coins(s) && a.world.enemies == Enemies(s)
    ensures a.world.platforms == Platforms(s)
    // The world is the one `restart_game` builds: the player at the spawn
    // point, at rest with the latch open, and the camera at 0.
    ensures a.world == Restart(a.world, s)
    ensures a.world.player.X() == SpawnX && a.world.player.box.Bottom() == SpawnBottom
    ensures a.world.player.vy == 0.0 && a.world.player.canJump && a.world.cameraX == 0.0
  {
    var blank := Player(Box(0.0, 0.0, s.playerWidth, s.playerHeight), s.playerAnchorDx, 0.0, false, true, true);
    var world := Restart(World(blank, [], [], [], 0, 0.0, Menu), s);
    App(world, s, StartOption, 0, StartVolume, false)
  }

  /** A fresh run in the given state. */
  function NewRun(a: App, state: GameState): App {
    a.(world := Restart(a.world, a.sizes).(gameState := state))
  }

  /** Enter on a settings entry: change the volume within [0, 1] or switch
      the control scheme. */
  function ChooseSetting(a: App): (r: App)
    requires 0 <= a.selectedSetting < SettingsOptionCount
    requires 0.0 <= a.volume <= 1.0
    ensures 0.0 <= r.volume <= 1.0
    ensures r.selectedSetting == VolumeUpSetting ==>
              r.volume >= a.volume && (r.volume == 1.0 || r.volume == a.volume + VolumeStep)
    ensures r.selectedSetting == VolumeDownSetting ==>
              r.volume <= a.volume && (r.volume == 0.0 || r.volume == a.volume - VolumeStep)
    ensures r.volume != a.volume ==> r.useWasd == a.useWasd
    ensures r.(volume := a.volume, useWasd := a.useWasd) == a
    // The clamp only bites at the ends of the range.
    ensures a.selectedSetting == VolumeUpSetting && r.volume == 1.0 ==> a.volume + VolumeStep >= 1.0
    ensures a.selectedSetting == VolumeDownSetting && r.volume == 0.0 ==> a.volume - VolumeStep <= 0.0
    // The third entry toggles the control scheme and only that.
    ensures a.selectedSetting == ToggleControlsSetting ==> r.useWasd == !a.useWasd && r.volume == a.volume
    ensures a.selectedSetting != ToggleControlsSetting ==> r.useWasd == a.useWasd
  {
    if a.selectedSetting == VolumeUpSetting then
      a.(volume := if 1.0 < a.volume + VolumeStep then 1.0 else a.volume + VolumeStep)
    else if a.selectedSetting == VolumeDownSetting then
      a.(volume := if 0.0 > a.volume - VolumeStep then 0.0 else a.volume - VolumeStep)
    else a.(useWasd := !a.useWasd)
  }

  /** Volume up then volume down, away from the top of the range, restores
      the volume; toggling the controls twice restores them. */
  lemma SettingsRoundTrips(a: App)
    requires 0 <= a.selectedSetting < SettingsOptionCount
    requires 0.0 <= a.volume <= 1.0
    ensures a.selectedSetting == VolumeUpSetting && a.volume + VolumeStep <= 1.0 ==>
              ChooseSetting(ChooseSetting(a).(selectedSetting := VolumeDownSetting)).volume == a.volume
    ensures a.selectedSetting == ToggleControlsSetting ==> ChooseSetting(ChooseSetting(a)) == a
  {
  }

  /** One frame of `update`, dispatched on the game state. */
  function Update(a: App, inp: Input): (t: Tick)
    requires WellFormed(a)
    ensures t.Exit? <==> a.world.gameState == Menu && inp.enter && a.selectedOption == QuitOption
    ensures t.Running? ==> WellFormed(t.app)
  {
    match a.world.gameState
    case Menu =>
      if !inp.enter then Running(a)
      else if a.selectedOption == StartOption then Running(NewRun(a, Playing))
      else if a.selectedOption == SettingsOption then Running(a.(world := a.world.(gameState := Settings)))
      else Exit
    case Settings =>
      var chosen := if inp.enter then ChooseSetting(a) else a;
      if inp.escape || inp.space then Running(chosen.(world := chosen.world.(gameState := Menu)))
      else Running(chosen)
    case Playing =>
      CameraStaysInWorld(a.world, inp);
      Running(a.(world := Step(a.world, inp)))
    case GameOver | Win =>
      if inp.space then Running(NewRun(a, Menu)) else Running(a)
  }

  /** The state after a frame, as a transition table. While playing, only
      escape, an enemy hit or reaching the goal leave the game; the player
      can never fall out of it. */
  lemma Transitions(a: App, inp: Input)
    requires WellFormed(a)
    requires Update(a, inp).Running?
    ensures Update(a, inp).app.world.gameState ==
      match a.world.gameState
      case Menu =>
        if inp.enter && a.selectedOption == StartOption then Playing
        else if inp.enter && a.selectedOption == SettingsOption then Settings
        else Menu
      case Settings => if inp.escape || inp.space then Menu else Settings
      case Playing =>
        if inp.escape then Menu
        else if EnemyHit(a.world, inp) then GameOver
        else if Update(a, inp).app.world.player.X() >= WinX then Win
        else Playing
      case GameOver => if inp.space then Menu else GameOver
      case Win => if inp.space then Menu else Win
  {
    if a.world.gameState == Playing {
      StepOutcome(a.world, inp);
    }
  }

  /** Starting a game from the menu gives a fresh run: score zero, every
      coin and every enemy of the level back in place. */
  lemma StartIsFresh(a: App, inp: Input)
    requires WellFormed(a)
    requires a.world.gameState == Menu && inp.enter && a.selectedOption == StartOption
    ensures Update(a, inp).app.world.gameState == Playing
    ensures Update(a, inp).app.world.score == 0
    ensures Update(a, inp).app.world.coins == Coins(a.sizes)
    ensures Update(a, inp).app.world.enemies == Enemies(a.sizes)
  {
  }
}

=== FILE: coins.dfy ===
/** Coin pickup: every coin the player overlaps is removed and scores. */
module CoinCollection {
  import opened Geometry

  /** The coins left after the player's box `b` has picked up every coin it
      overlaps; the rest keep their order. */
  function Collect(b: Box, coins: seq<Box>): (kept: seq<Box>)
    ensures |kept| <= |coins|
    ensures forall c :: c in kept <==> c in coins && !Overlaps(b, c)
    ensures forall c {:trigger multiset(kept)[c]} ::
              multiset(kept)[c] == (if Overlaps(b, c) then 0 else multiset(coins)[c])
    decreases |coins|
  {
    if |coins| == 0 then []
    else
      assert coins == [coins[0]] + coins[1..];
      (if Overlaps(b, coins[0]) then [] else [coins[0]]) + Collect(b, coins[1..])
  }

  /** Picking up distributes over concatenation: coins keep their relative
      order. */
  lemma {:induction false} CollectAppend(b: Box, xs: seq<Box>, ys: seq<Box>)
    ensures Collect(b, xs + ys) == Collect(b, xs) + Collect(b, ys)
    decreases |xs|
  {
    if |xs| > 0 {
      assert (xs + ys)[0] == xs[0];
      assert (xs + ys)[1..] == xs[1..] + ys;
      CollectAppend(b, xs[1..], ys);
      var head := if Overlaps(b, xs[0]) then [] else [xs[0]];
      assert Collect(b, xs + ys) == head + (Collect(b, xs[1..]) + Collect(b, ys));
      assert Collect(b, xs) == head + Collect(b, xs[1..]);
    } else {
      assert xs + ys == ys;
    }
  }

  /** A coin already picked up cannot be picked up again: a second pass with
      the same box removes nothing. */
  lemma CollectIdempotent(b: Box, coins: seq<Box>)
    ensures Collect(b, Collect(b, coins)) == Collect(b, coins)
  {
    var kept := Collect(b, coins);
    NothingLeftToCollect(b, kept);
  }

  lemma {:induction false} NothingLeftToCollect(b: Box, coins: seq<Box>)
    requires forall c | c in coins :: !Overlaps(b, c)
    ensures Collect(b, coins) == coins
    decreases |coins|
  {
    if |coins| > 0 {
      assert coins[0] in coins;
      assert forall c | c in coins[1..] :: c in coins;
      NothingLeftToCollect(b, coins[1..]);
      assert coins == [coins[0]] + coins[1..];
    }
  }
}

=== FILE: enemy_control.dfy ===
/** The enemy half of one gameplay tick: every enemy patrols, then an
    enemy the player overlaps is either killed (stomped from above) or ends
    the run. Enemies are visited from the last index down to the first. */
module EnemyControl {
  import opened Geometry
  import opened Entities

  datatype Option<T> = None | Some(value: T)

  predicate Bounces(b: Box) {
    b.left <= 0.0 || b.Right() >= WorldLength
  }

  /** One patrol step: move by the speed, then reverse the speed if the moved
      box touches or crosses either end of the world. */
  function Patrol(e: Enemy): (r: Enemy)
    ensures r.box == e.box.ShiftX(e.speed)
    ensures Bounces(r.box) ==> r.speed == -e.speed
    ensures !Bounces(r.box) ==> r.speed == e.speed
    ensures r.speed == e.speed || r.speed == -e.speed
  {
    var b := e.box.ShiftX(e.speed);
    Enemy(b, if Bounces(b) then -e.speed else e.speed)
  }

  /** Every enemy after its patrol step, in the original order. */
  function Patrolled(es: seq<Enemy>): (ps: seq<Enemy>)
    ensures |ps| == |es|
    ensures forall i | 0 <= i < |es| :: ps[i] == Patrol(es[i])
  {
    seq(|es|, i requires 0 <= i < |es| => Patrol(es[i]))
  }

  /** The kill test: the player is falling and its bottom is within the kill
      window below the enemy's top. */
  predicate Stomps(p: Player, e: Enemy) {
    p.vy > 0.0 && p.box.Bottom() - e.box.top < KillWindow
  }

  /** What the enemy pass leaves behind: the player (only its speed can
      change), the enemy list, the score, and whether a hit ended the tick. */
  datatype Pass = Pass(player: Player, enemies: seq<Enemy>, score: int, hit: bool)

  /** The enemy loop over `es`, last index first. An enemy that does not
      touch the player is only moved; one that is stomped is removed, bounces
      the player and scores; any other contact stops the loop with the
      enemies below it not yet moved. */
  function Fight(p: Player, es: seq<Enemy>, score: int): (r: Pass)
    ensures |r.enemies| <= |es|
    ensures r.score == score + KillAward * (|es| - |r.enemies|)
    ensures r.player == p || (r.player == p.(vy := KillBounce) && |r.enemies| < |es|)
    decreases |es|
  {
    if |es| == 0 then Pass(p, [], score, false)
    else
      var n := |es| - 1;
      var e := Patrol(es[n]);
      if !Overlaps(p.box, e.box) then
        var r := Fight(p, es[..n], score);
        r.(enemies := r.enemies + [e])
      else if Stomps(p, e) then
        Fight(p.(vy := KillBounce), es[..n], score + KillAward)
      else
        Pass(p, es[..n] + [e], score, true)
  }

  /** The highest index below `n` whose enemy the box overlaps. */
  function LastOverlap(b: Box, es: seq<Enemy>, n: nat): (r: Option<nat>)
    requires n <= |es|
    ensures r.Some? ==> r.value < n
    decreases n
  {
    if n == 0 then None
    else if Overlaps(b, es[n - 1].box) then Some(n - 1)
    else LastOverlap(b, es, n - 1)
  }

  /** `LastOverlap` finds the overlapping enemy with the highest index below
      `n`, and finds none exactly when no enemy below `n` overlaps. */
  lemma {:induction false} LastOverlapMeaning(b: Box, es: seq<Enemy>, n: nat)
    requires n <= |es|
    ensures LastOverlap(b, es, n).None? <==> forall i | 0 <= i < n :: !Overlaps(b, es[i].box)
    ensures LastOverlap(b, es, n).Some? ==>
              && Overlaps(b, es[LastOverlap(b, es, n).value].box)
              && forall i | LastOverlap(b, es, n).value < i < n :: !Overlaps(b, es[i].box)
    decreases n
  {
    if n > 0 {
      LastOverlapMeaning(b, es, n - 1);
    }
  }

  lemma LastOverlapPrefix(b: Box, es: seq<Enemy>, m: nat, n: nat)
    requires n <= m <= |es|
    ensures LastOverlap(b, es[..m], n) == LastOverlap(b, es, n)
    decreases n
  {
    if n > 0 {
      assert es[..m][n - 1] == es[n - 1];
      LastOverlapPrefix(b, es, m, n - 1);
    }
  }

  /** The enemy pass in closed form. Only the overlapping enemy with the
      highest index is ever tested for a kill, because a kill turns the
      player upwards and then every further contact is a hit:
      - no enemy overlaps: all enemies patrol, nothing else changes;
      - the highest overlapping enemy `j` is not stomped: game over, the
        enemies below `j` are left where they were;
      - `j` is stomped: it alone is removed, the player bounces, the score
        rises by the kill award, and the next overlapping enemy below `j`,
        if there is one, is a hit. */
  function FightSpec(p: Player, es: seq<Enemy>, score: int): Pass {
    Resolve(p, es, Patrolled(es), score)
  }

  /** `FightSpec` for enemies `es` whose patrolled positions are `ps`. */
  function Resolve(p: Player, es: seq<Enemy>, ps: seq<Enemy>, score: int): Pass
    requires |ps| == |es|
  {
    match LastOverlap(p.box, ps, |ps|)
    case None => Pass(p, ps, score, false)
    case Some(j) =>
      if Stomps(p, ps[j]) then AfterKill(p.(vy := KillBounce), es, ps, j, score + KillAward)
      else Pass(p, es[..j] + ps[j..], score, true)
  }

  /** The rest of the pass once enemy `j` has been killed and the player
      bounced: the next overlapping enemy below `j`, if any, is a hit. */
  function AfterKill(q: Player, es: seq<Enemy>, ps: seq<Enemy>, j: nat, score: int): Pass
    requires j < |es| == |ps|
  {
    match LastOverlap(q.box, ps, j)
    case None => Pass(q, ps[..j] + ps[j + 1..], score, false)
    case Some(k) => Pass(q, es[..k] + ps[k..j] + ps[j + 1..], score, true)
  }

  /** A pass result with one more (moved) enemy at the end of its list. */
  function WithMoved(r: Pass, e: Enemy): Pass {
    r.(enemies := r.enemies + [e])
  }

  lemma {:induction false} FightMatchesSpec(p: Player, es: seq<Enemy>, score: int)
    ensures Fight(p, es, score) == FightSpec(p, es, score)
    decreases |es|
  {
    if |es| > 0 {
      var n := |es| - 1;
      var ps := Patrolled(es);
      var pre := es[..n];
      assert Patrolled(pre) == ps[..n];
      if !Overlaps(p.box, ps[n].box) {
        FightMatchesSpec(p, pre, score);
        assert Fight(p, es, score) == WithMoved(Fight(p, pre, score), ps[n]);
        ClearStep(p, es, ps, score);
      } else if Stomps(p, ps[n]) {
        FightMatchesSpec(p.(vy := KillBounce), pre, score + KillAward);
        StompStep(p, es, ps, score);
      } else {
        HitStep(p, es, ps, score);
      }
    }
  }

  /** The last enemy is not touched: the pass over the shorter list, with
      the moved last enemy appended. */
  lemma ClearStep(p: Player, es: seq<Enemy>, ps: seq<Enemy>, score: int)
    requires 0 < |es| == |ps|
    requires !Overlaps(p.box, ps[|ps| - 1].box)
    ensures Resolve(p, es, ps, score)
         == WithMoved(Resolve(p, es[..|es| - 1], ps[..|ps| - 1], score), ps[|ps| - 1])
  {
    var n := |es| - 1;
    LastOverlapPrefix(p.box, ps, n, n);
    assert LastOverlap(p.box, ps, |ps|) == LastOverlap(p.box, ps, n);
    match LastOverlap(p.box, ps, n)
    case None =>
      assert ps[..n] + [ps[n]] == ps;
    case Some(j) =>
      if !Stomps(p, ps[j]) {
        ClearHitStep(p, es, ps, score, j);
      } else {
        LastOverlapPrefix(p.box, ps, n, j);
        ClearStompStep(p, es, ps, score, j);
      }
  }

  lemma ClearHitStep(p: Player, es: seq<Enemy>, ps: seq<Enemy>, score: int, j: nat)
    requires 0 < |es| == |ps|
    requires j < |ps| - 1
    requires LastOverlap(p.box, ps, |ps|) == Some(j)
    requires LastOverlap(p.box, ps[..|ps| - 1], |ps| - 1) == Some(j)
    requires !Stomps(p, ps[j])
    ensures Resolve(p, es, ps, score)
         == WithMoved(Resolve(p, es[..|es| - 1], ps[..|ps| - 1], score), ps[|ps| - 1])
  {
    var n := |es| - 1;
    assert es[..n][..j] == es[..j];
    DropLastThenAppend(ps, j);
    assert es[..j] + ps[..n][j..] + [ps[n]] == es[..j] + (ps[..n][j..] + [ps[n]]);
  }

  lemma ClearStompStep(p: Player, es: seq<Enemy>, ps: seq<Enemy>, score: int, j: nat)
    requires 0 < |es| == |ps|
    requires j < |ps| - 1
    requires LastOverlap(p.box, ps, |ps|) == Some(j)
    requires LastOverlap(p.box, ps[..|ps| - 1], |ps| - 1) == Some(j)
    requires LastOverlap(p.box, ps[..|ps| - 1], j) == LastOverlap(p.box, ps, j)
    requires Stomps(p, ps[j])
    ensures Resolve(p, es, ps, score)
         == WithMoved(Resolve(p, es[..|es| - 1], ps[..|ps| - 1], score), ps[|ps| - 1])
  {
    var n := |es| - 1;
    var q := p.(vy := KillBounce);
    DropLastThenAppend(ps, j + 1);
    match LastOverlap(p.box, ps, j)
    case None =>
      assert ps[..n][..j] == ps[..j];
      assert ps[..j] + ps[..n][j + 1..] + [ps[n]] == ps[..j] + (ps[..n][j + 1..] + [ps[n]]);
    case Some(k) =>
      assert es[..n][..k] == es[..k];
      assert ps[..n][k..j] == ps[k..j];
      assert es[..k] + ps[k..j] + ps[..n][j + 1..] + [ps[n]]
          == es[..k] + ps[k..j] + (ps[..n][j + 1..] + [ps[n]]);
  }

  lemma DropLastThenAppend<T>(s: seq<T>, j: nat)
    requires j < |s|
    ensures s[..|s| - 1][j..] + [s[|s| - 1]] == s[j..]
  {
  }

  /** The last enemy is stomped: it disappears and the shorter list is
      resolved with the bounced player, who can no longer kill. */
  lemma StompStep(p: Player, es: seq<Enemy>, ps: seq<Enemy>, score: int)
    requires 0 < |es| == |ps|
    requires Overlaps(p.box, ps[|ps| - 1].box) && Stomps(p, ps[|ps| - 1])
    ensures Resolve(p, es, ps, score)
         == Resolve(p.(vy := KillBounce), es[..|es| - 1], ps[..|ps| - 1], score + KillAward)
  {
    var n := |es| - 1;
    var q := p.(vy := KillBounce);
    LastOverlapPrefix(p.box, ps, n, n);
    assert ps[n + 1..] == [];
    match LastOverlap(p.box, ps, n)
    case None =>
      assert ps[..n] + ps[n + 1..] == ps[..n];
    case Some(k) =>
      assert !Stomps(q, ps[..n][k]);
      assert es[..n][..k] == es[..k];
      assert ps[..n][k..] == ps[k..n] + ps[n + 1..];
      assert es[..k] + ps[..n][k..] == es[..k] + ps[k..n] + ps[n + 1..];
  }

  /** The last enemy is touched but not stomped: the pass stops there. */
  lemma HitStep(p: Player, es: seq<Enemy>, ps: seq<Enemy>, score: int)
    requires 0 < |es| == |ps|
    requires Overlaps(p.box, ps[|ps| - 1].box) && !Stomps(p, ps[|ps| - 1])
    ensures Resolve(p, es, ps, score) == Pass(p, es[..|es| - 1] + [ps[|ps| - 1]], score, true)
  {
    assert ps[|ps| - 1..] == [ps[|ps| - 1]];
  }

  /** At most one enemy dies per tick, and only when the player was falling. */
  lemma AtMostOneKill(p: Player, es: seq<Enemy>, score: int)
    ensures |Fight(p, es, score).enemies| >= |es| - 1
    ensures |Fight(p, es, score).enemies| < |es| ==> p.vy > 0.0
  {
    FightMatchesSpec(p, es, score);
  }

  /** With no contact at all, every enemy patrols and nothing else changes. */
  lemma NoContactOnlyPatrols(p: Player, es: seq<Enemy>, score: int)
    requires forall i | 0 <= i < |es| :: !Overlaps(p.box, Patrol(es[i]).box)
    ensures Fight(p, es, score) == Pass(p, Patrolled(es), score, false)
  {
    FightMatchesSpec(p, es, score);
  }

  /** The tie-break for one enemy the player touches: a stomp kills it, any
      other contact is a hit, with the score and the player untouched. */
  lemma KillBeforeHit(p: Player, e: Enemy, score: int)
    requires Overlaps(p.box, Patrol(e).box)
    ensures Stomps(p, Patrol(e)) ==> Fight(p, [e], score) == Pass(p.(vy := KillBounce), [], score + KillAward, false)
    ensures !Stomps(p, Patrol(e)) ==> Fight(p, [e], score) == Pass(p, [Patrol(e)], score, true)
  {
    assert [e][..0] == [];
  }

  /** A hit needs contact: it ends the tick only if the player overlaps some
      enemy after that enemy's patrol step. */
  lemma HitNeedsContact(p: Player, es: seq<Enemy>, score: int)
    ensures Fight(p, es, score).hit ==>
              exists i | 0 <= i < |es| :: Overlaps(p.box, Patrol(es[i]).box)
  {
    FightMatchesSpec(p, es, score);
    var ps := Patrolled(es);
    LastOverlapMeaning(p.box, ps, |ps|);
    if Fight(p, es, score).hit {
      var j := LastOverlap(p.box, ps, |ps|).value;
      assert Overlaps(p.box, Patrol(es[j]).box);
    }
  }
}

=== FILE: entities.dfy ===
/** The constants of the game and the records that make up one game world:
    the player, the patrolling enemies, the coins and the platforms. */
module Entities {
  import opened Geometry

  // Screen size and world length.
  const Width: real := 800.0
  const Height: real := 400.0
  const WorldLength: real := 3000.0

  /** `WIDTH // 2`, the floor division of the integer screen width. */
  const HalfWidth: real := 400.0

  // Player movement.
  const PlayerSpeed: real := 4.0
  const JumpPower: real := -10.0
  const Gravity: real := 0.5

  /** A landing snaps the player onto a platform only when it has sunk into it
      by less than this many units. */
  const LandingTolerance: real := 25.0

  /** A player overlapping an enemy kills it when falling and its bottom is
      less than this many units below the enemy's top. */
  const KillWindow: real := 30.0

  /** The upward speed after a kill, `jump_power / 1.5`, as an exact rational. */
  const KillBounce: real := JumpPower / 1.5

  const KillAward: int := 50
  const CoinAward: int := 10

  /** The player wins once its x reaches `WORLD_LENGTH - 100`. */
  const WinX: real := WorldLength - 100.0

  /** The camera never scrolls past this offset. */
  const MaxCamera: real := WorldLength - Width

  datatype GameState = Menu | Settings | Playing | GameOver | Win

  /** The player: its collision box, the horizontal offset of its anchor
      (`Actor.x`) from the box's left edge, its vertical speed and the three
      flags of the controller. */
  datatype Player = Player(
    box: Box,
    anchorDx: real,
    vy: real,
    onGround: bool,
    canJump: bool,
    facingRight: bool)
  {
    /** The player's `x`, the coordinate that the win test and the camera read. */
    function X(): real { box.left + anchorDx }
  }

  /** An enemy with its signed horizontal speed (one entry of the parallel
      lists `enemies` and `enemy_speeds`, which therefore always agree in
      length). */
  datatype Enemy = Enemy(box: Box, speed: real)

  /** Everything the gameplay step reads and writes. */
  datatype World = World(
    player: Player,
    enemies: seq<Enemy>,
    coins: seq<Box>,
    platforms: seq<Box>,
    score: int,
    cameraX: real,
    gameState: GameState)

  /** The keys held during one tick, already mapped from arrows or WASD:
      `left`, `right` and `jump` drive the player; `escape`, `enter` and
      `space` drive the menus. */
  datatype Input = Input(
    left: bool,
    right: bool,
    jump: bool,
    escape: bool,
    enter: bool,
    space: bool)
}

=== FILE: geometry.dfy ===
/** Axis-aligned boxes and the strict overlap test used for every collision
    in the game (pgzero's `colliderect`). */
module Geometry {

  /** A box given by its top-left corner and its size. Screen coordinates:
      `top` grows downwards, so `Bottom()` is below `top` for a positive height. */
  datatype Box = Box(left: real, top: real, width: real, height: real) {

    function Right(): real { left + width }

    function Bottom(): real { top + height }

    /** The same box moved horizontally by `dx`. */
    function ShiftX(dx: real): (b: Box)
      ensures b.Right() == Right() + dx && b.Bottom() == Bottom()
    {
      this.(left := left + dx)
    }

    /** The same box moved vertically by `dy`. */
    function ShiftY(dy: real): (b: Box)
      ensures b.Bottom() == Bottom() + dy && b.Right() == Right()
    {
      this.(top := top + dy)
    }

    /** The same box moved vertically so that its bottom edge lies at `y`
        (assigning to an Actor's `bottom`). */
    function WithBottom(y: real): (b: Box)
      ensures b.Bottom() == y
      ensures b.left == left && b.width == width && b.height == height
    {
      this.(top := y - height)
    }
  }

  /** Strict overlap of the horizontal extents: one box is (partly) above or
      below the other. */
  predicate OverlapsHorizontally(a: Box, b: Box) {
    a.left < b.Right() && b.left < a.Right()
  }

  /** Strict overlap on both axes: boxes that only touch along an edge do not
      collide. */
  predicate Overlaps(a: Box, b: Box) {
    && OverlapsHorizontally(a, b)
    && a.top < b.Bottom() && b.top < a.Bottom()
  }
}

=== FILE: level.dfy ===
/** The level layout (`build_level`) and the reset of a run (`restart_game`).
    Sprite sizes come from images, so they are parameters here. */
module Level {
  import opened Geometry
  import opened Entities

  /** The sizes of the sprites, and the horizontal offset of the player's
      anchor from the left edge of its box. */
  datatype Sizes = Sizes(
    playerWidth: real, playerHeight: real, playerAnchorDx: real,
    enemyWidth: real, enemyHeight: real,
    coinWidth: real, coinHeight: real,
    groundWidth: real, groundHeight: real,
    platformWidth: real, platformHeight: real)

  predicate ValidSizes(s: Sizes) {
    && s.playerWidth > 0.0 && s.playerHeight > 0.0
    && s.enemyWidth > 0.0 && s.enemyHeight > 0.0
    && s.coinWidth > 0.0 && s.coinHeight > 0.0
    && s.groundWidth > 0.0 && s.groundHeight > 0.0
    && s.platformWidth > 0.0 && s.platformHeight > 0.0
  }

  const GroundTileCount: nat := 100
  const GroundSpacing: real := 32.0
  const GroundTop: real := 370.0

  /** Top-left corners of the floating platforms. */
  const PlatformSpots: seq<(real, real)> := [
    (300.0, 300.0), (600.0, 250.0), (900.0, 320.0), (1200.0, 270.0),
    (1600.0, 230.0), (2000.0, 300.0), (2400.0, 250.0), (2700.0, 200.0)]

  /** Top-left corners of the coins. */
  const CoinSpots: seq<(real, real)> := [
    (320.0, 270.0), (620.0, 220.0), (1250.0, 240.0), (1650.0, 200.0),
    (2050.0, 270.0), (2450.0, 220.0), (2750.0, 170.0)]

  /** Left edges and initial speeds of the enemies, which all start with
      their top at `EnemyTop`. */
  const EnemySpots: seq<real> := [800.0, 1500.0, 2300.0]
  const EnemySpeeds: seq<real> := [2.0, -2.0, 1.5]
  const EnemyTop: real := 360.0

  /** Where the player appears: its x and its bottom edge. */
  const SpawnX: real := 80.0
  const SpawnBottom: real := 370.0

  /** Boxes of one size at the given top-left corners, in order. */
  function Place(spots: seq<(real, real)>, width: real, height: real): (bs: seq<Box>)
    ensures |bs| == |spots|
    ensures forall i | 0 <= i < |spots| :: bs[i] == Box(spots[i].0, spots[i].1, width, height)
  {
    seq(|spots|, i requires 0 <= i < |spots| => Box(spots[i].0, spots[i].1, width, height))
  }

  /** The floor: a row of tiles every `GroundSpacing` units from x = 0. */
  function Ground(s: Sizes): (g: seq<Box>)
    ensures |g| == GroundTileCount
    ensures forall i | 0 <= i < |g| :: g[i].left == GroundSpacing * i as real && g[i].top == GroundTop
    ensures forall i | 0 <= i < |g| :: g[i].width == s.groundWidth && g[i].height == s.groundHeight
  {
    seq(GroundTileCount, i requires 0 <= i < GroundTileCount =>
      Box(GroundSpacing * i as real, GroundTop, s.groundWidth, s.groundHeight))
  }

  function Platforms(s: Sizes): seq<Box> {
    Ground(s) + Place(PlatformSpots, s.platformWidth, s.platformHeight)
  }

  function Coins(s: Sizes): seq<Box> {
    Place(CoinSpots, s.coinWidth, s.coinHeight)
  }

  function Enemies(s: Sizes): (es: seq<Enemy>)
    ensures |es| == |EnemySpots|
    ensures forall i | 0 <= i < |es| :: es[i].speed == EnemySpeeds[i]
    ensures forall i | 0 <= i < |es| :: es[i].box == Box(EnemySpots[i], EnemyTop, s.enemyWidth, s.enemyHeight)
  {
    seq(|EnemySpots|, i requires 0 <= i < |EnemySpots| =>
      Enemy(Box(EnemySpots[i], EnemyTop, s.enemyWidth, s.enemyHeight), EnemySpeeds[i]))
  }

  /** `restart_game`: a fresh level, the player at the spawn point with the
      latch open and facing right, score and camera at zero. The grounded
      flag and the game state are carried over: the reset does not touch
      them. */
  function Restart(w: World, s: Sizes): (r: World)
    ensures r.score == 0 && r.cameraX == 0.0
    ensures r.player.X() == SpawnX && r.player.box.Bottom() == SpawnBottom
    ensures r.player.box.width == s.playerWidth && r.player.box.height == s.playerHeight
    ensures r.player.anchorDx == s.playerAnchorDx
    ensures r.player.vy == 0.0 && r.player.canJump && r.player.facingRight
    ensures r.player.onGround == w.player.onGround && r.gameState == w.gameState
    ensures |r.platforms| == GroundTileCount + |PlatformSpots|
    ensures |r.coins| == |CoinSpots| && |r.enemies| == |EnemySpots|
    // The level is rebuilt from scratch: nothing of the old layout survives.
    ensures r.platforms == Platforms(s) && r.coins == Coins(s) && r.enemies == Enemies(s)
  {
    var box := Box(SpawnX - s.playerAnchorDx, SpawnBottom - s.playerHeight, s.playerWidth, s.playerHeight);
    var player := Player(box, s.playerAnchorDx, 0.0, w.player.onGround, true, true);
    World(player, Enemies(s), Coins(s), Platforms(s), 0, 0.0, w.gameState)
  }

  /** A run leaves nothing behind after a reset except the grounded flag and
      the game state; in particular resetting twice is resetting once. */
  lemma RestartForgetsRun(w1: World, w2: World, s: Sizes)
    requires w1.player.onGround == w2.player.onGround && w1.gameState == w2.gameState
    ensures Restart(w1, s) == Restart(w2, s)
    ensures Restart(Restart(w1, s), s) == Restart(w1, s)
  {
  }

  /** The player appears standing at the height of the ground tiles. */
  lemma SpawnOnGroundLevel(w: World, s: Sizes)
    ensures Restart(w, s).player.box.Bottom() == Restart(w, s).platforms[0].top
  {
  }
}

=== FILE: player_control.dfy ===
/** The player half of one gameplay tick: walking, the jump latch, gravity,
    landing on platforms and the floor clamp. */
module PlayerControl {
  import opened Geometry
  import opened Entities

  /** Left and right are applied one after the other, so holding both leaves
      the player where it was, facing right. */
  function Walk(p: Player, left: bool, right: bool): (r: Player)
    ensures r.box.top == p.box.top && r.box.width == p.box.width && r.box.height == p.box.height
    ensures left == right ==> r.box.left == p.box.left
    ensures left && !right ==> r.box.left == p.box.left - PlayerSpeed
    ensures right && !left ==> r.box.left == p.box.left + PlayerSpeed
    ensures r.facingRight <==> right || (p.facingRight && !left)
    ensures r.(box := p.box, facingRight := p.facingRight) == p
  {
    var afterLeft := if left then p.(box := p.box.ShiftX(-PlayerSpeed), facingRight := false) else p;
    if right then afterLeft.(box := afterLeft.box.ShiftX(PlayerSpeed), facingRight := true) else afterLeft
  }

  /** A jump starts only when the key is held, the latch is open and the
      player stood on something at the end of the previous tick. */
  predicate JumpStarts(p: Player, jump: bool) {
    jump && p.canJump && p.onGround
  }

  function Jump(p: Player, jump: bool): (r: Player)
    ensures JumpStarts(p, jump) ==> r == p.(vy := JumpPower, canJump := false)
    ensures !JumpStarts(p, jump) ==> r == p
    // Only the speed and the latch can change, and a jump never re-opens it.
    ensures r.(vy := p.vy, canJump := p.canJump) == p
    ensures r.canJump ==> p.canJump
  {
    if JumpStarts(p, jump) then p.(vy := JumpPower, canJump := false) else p
  }

  /** Gravity, then the vertical move; the player counts as airborne until a
      landing or the floor clamp says otherwise. */
  function Fall(p: Player): Player {
    var vy := p.vy + Gravity;
    p.(vy := vy, box := p.box.ShiftY(vy), onGround := false)
  }

  /** The shallow-penetration landing test against one platform. */
  predicate LandsOn(p: Player, plat: Box) {
    && Overlaps(p.box, plat)
    && p.vy >= 0.0
    && p.box.Bottom() > plat.top
    && p.box.Bottom() - plat.top < LandingTolerance
  }

  /** The box rests on the platform: its bottom edge is the platform's top
      and the two overlap horizontally. */
  predicate StandsOn(b: Box, plat: Box) {
    b.Bottom() == plat.top && OverlapsHorizontally(b, plat)
  }

  function SnapOnto(p: Player, plat: Box): Player {
    p.(box := p.box.WithBottom(plat.top), vy := 0.0, onGround := true, canJump := true)
  }

  /** The landing pass over all platforms, in list order; each platform is
      tested against the player as the earlier ones left it. */
  function Land(p: Player, plats: seq<Box>): (r: Player)
    ensures r.box.left == p.box.left && r.box.width == p.box.width && r.box.height == p.box.height
    ensures r.anchorDx == p.anchorDx && r.facingRight == p.facingRight
    ensures r.box.Bottom() <= p.box.Bottom()
    ensures (exists i | 0 <= i < |plats| :: LandsOn(p, plats[i])) ==>
              && r.onGround && r.canJump && r.vy == 0.0
              && (exists j | 0 <= j < |plats| :: StandsOn(r.box, plats[j]))
    ensures (forall i | 0 <= i < |plats| :: !LandsOn(p, plats[i])) ==> r == p
    decreases |plats|
  {
    if |plats| == 0 then p
    else
      var q := if LandsOn(p, plats[0]) then SnapOnto(p, plats[0]) else p;
      var r := Land(q, plats[1..]);
      assert forall i | 1 <= i < |plats| :: plats[1..][i - 1] == plats[i];
      r
  }

  /** The floor clamp: a player below the bottom of the screen is put back
      on it and counts as grounded. */
  function ClampToFloor(p: Player): (r: Player)
    ensures r.box.Bottom() <= Height
    ensures p.box.Bottom() > Height ==>
              r.box.Bottom() == Height && r.vy == 0.0 && r.onGround && r.canJump
    ensures p.box.Bottom() <= Height ==> r == p
    ensures r.box.left == p.box.left && r.box.width == p.box.width && r.box.height == p.box.height
    ensures r.anchorDx == p.anchorDx && r.facingRight == p.facingRight
  {
    if p.box.Bottom() > Height then
      p.(box := p.box.WithBottom(Height), vy := 0.0, onGround := true, canJump := true)
    else p
  }

  /** The player's part of a tick, in source order. */
  function Move(p: Player, inp: Input, plats: seq<Box>): (r: Player)
    ensures r.box.width == p.box.width && r.box.height == p.box.height && r.anchorDx == p.anchorDx
    ensures r.box.left == Walk(p, inp.left, inp.right).box.left
    ensures r.facingRight == Walk(p, inp.left, inp.right).facingRight
    ensures r.box.Bottom() <= Height
    // Grounded exactly when a landing or the clamp happened: the player then
    // stands on the floor or on a platform top, stopped and with the latch
    // re-armed.
    ensures r.onGround ==> r.canJump && r.vy == 0.0
    ensures r.onGround ==>
              r.box.Bottom() == Height || exists j | 0 <= j < |plats| :: StandsOn(r.box, plats[j])
    ensures var q := Fall(Jump(Walk(p, inp.left, inp.right), inp.jump));
            (forall j | 0 <= j < |plats| :: !LandsOn(q, plats[j])) && q.box.Bottom() <= Height ==> !r.onGround
    // The latch only re-opens on ground contact.
    ensures r.canJump ==> r.onGround || (p.canJump && !JumpStarts(p, inp.jump))
    // In the air the speed grows by exactly one gravity step.
    ensures !r.onGround ==> r.vy == (if JumpStarts(p, inp.jump) then JumpPower else p.vy) + Gravity
    // In the air the player has fallen by exactly its new speed.
    ensures !r.onGround ==> r.box == Walk(p, inp.left, inp.right).box.ShiftY(r.vy)
  {
    ClampToFloor(Land(Fall(Jump(Walk(p, inp.left, inp.right), inp.jump)), plats))
  }

  /** A jump from a player standing within the screen takes off at once: the
      speed is the jump impulse plus one gravity step and the player is
      airborne with the latch closed. */
  lemma JumpTakesOff(p: Player, inp: Input, plats: seq<Box>)
    requires JumpStarts(p, inp.jump)
    requires p.box.Bottom() <= Height
    ensures Move(p, inp, plats).vy == JumpPower + Gravity
    ensures !Move(p, inp, plats).onGround && !Move(p, inp, plats).canJump
  {
    var q := Fall(Jump(Walk(p, inp.left, inp.right), inp.jump));
    assert q.vy < 0.0;
    assert forall i | 0 <= i < |plats| :: !LandsOn(q, plats[i]);
    assert Land(q, plats) == q;
  }

  /** The double-jump guard: unless the latch is open and the player is
      grounded, holding the jump key changes nothing. */
  lemma JumpNeedsLatchAndGround(p: Player, inp: Input, plats: seq<Box>)
    requires !(p.canJump && p.onGround)
    ensures Move(p, inp, plats) == Move(p, inp.(jump := false), plats)
  {
  }

  /** A landing on a single platform puts the player's bottom exactly on the
      platform top, stops it and re-arms the latch, without moving it
      sideways. */
  lemma LandingSnapsOnTop(p: Player, plat: Box)
    requires LandsOn(p, plat)
    ensures Land(p, [plat]).box.Bottom() == plat.top
    ensures Land(p, [plat]).vy == 0.0 && Land(p, [plat]).onGround && Land(p, [plat]).canJump
    ensures Land(p, [plat]).box.left == p.box.left
  {
    assert [plat][1..] == [];
  }

  /** The landing pass picks the right platform: when the player lands on
      one platform and touches no other, before or after the snap, the pass
      is exactly the snap onto that platform. */
  lemma {:induction false} LandsOnOnly(p: Player, plats: seq<Box>, i: nat)
    requires i < |plats| && LandsOn(p, plats[i])
    requires forall j | 0 <= j < |plats| && j != i ::
               !Overlaps(p.box, plats[j]) && !Overlaps(SnapOnto(p, plats[i]).box, plats[j])
    ensures Land(p, plats) == SnapOnto(p, plats[i])
    decreases i
  {
    var rest := plats[1..];
    if i == 0 {
      var q := SnapOnto(p, plats[0]);
      assert forall j | 0 <= j < |rest| :: rest[j] == plats[j + 1];
      assert forall j | 0 <= j < |rest| :: !LandsOn(q, rest[j]);
      assert Land(p, plats) == Land(q, rest);
    } else {
      assert !LandsOn(p, plats[0]);
      assert Land(p, plats) == Land(p, rest);
      assert forall j | 0 <= j < |rest| :: rest[j] == plats[j + 1];
      assert rest[i - 1] == plats[i];
      LandsOnOnly(p, rest, i - 1);
    }
  }
}

=== FILE: session.dfy ===
/** One gameplay tick (`handle_gameplay`) as a pure function of the world and
    the keys held, and runs of consecutive ticks while the game is on. */
module Session {
  import opened Geometry
  import opened Entities
  import opened PlayerControl
  import opened EnemyControl
  import opened CoinCollection

  /** The camera follows the player's x, centred on the screen and clamped
      to the world. */
  function Camera(x: real): (c: real)
    ensures 0.0 <= c <= MaxCamera
    ensures HalfWidth <= x <= MaxCamera + HalfWidth ==> c == x - HalfWidth
    ensures x < HalfWidth ==> c == 0.0
    ensures x > MaxCamera + HalfWidth ==> c == MaxCamera
  {
    var capped := if MaxCamera < x - HalfWidth then MaxCamera else x - HalfWidth;
    if capped < 0.0 then 0.0 else capped
  }

  /** The player after its own part of the tick, before enemies and coins. */
  function Moved(w: World, inp: Input): Player {
    Move(w.player, inp, w.platforms)
  }

  /** The enemy pass of a tick that was not cancelled with escape. */
  function Fought(w: World, inp: Input): Pass {
    Fight(Moved(w, inp), w.enemies, w.score)
  }

  /** Whether an enemy hit ends this tick. */
  predicate EnemyHit(w: World, inp: Input) {
    !inp.escape && Fought(w, inp).hit
  }

  /** One tick of `handle_gameplay`. Escape returns to the menu and changes
      nothing else; a hit ends the tick before coins, camera and the win
      test; otherwise coins are collected, the fall-off test runs, the win
      test runs last and overrides it, and the camera follows. */
  function Step(w: World, inp: Input): (r: World)
    ensures r.platforms == w.platforms
    ensures inp.escape ==> r == w.(gameState := Menu)
    ensures r.player.box.width == w.player.box.width && r.player.box.height == w.player.box.height
    ensures r.player.anchorDx == w.player.anchorDx
    ensures |r.enemies| <= |w.enemies| && |r.coins| <= |w.coins|
    // Every point comes from a removed enemy or a removed coin.
    ensures r.score == w.score + KillAward * (|w.enemies| - |r.enemies|) + CoinAward * (|w.coins| - |r.coins|)
    ensures r.score >= w.score
    // The jump latch re-opens only on ground contact, and a grounded player
    // stands on the floor or on a platform top.
    ensures r.player.canJump ==> r.player.onGround || w.player.canJump
    ensures !inp.escape && r.player.onGround ==>
              || r.player.box.Bottom() == Height
              || exists j | 0 <= j < |w.platforms| :: StandsOn(r.player.box, w.platforms[j])
    // Unless the tick ended with escape or a hit, the camera follows the
    // player's final x.
    ensures !inp.escape && !Fought(w, inp).hit ==> r.cameraX == Camera(r.player.X())
  {
    if inp.escape then w.(gameState := Menu)
    else
      var f := Fought(w, inp);
      if f.hit then
        w.(player := f.player, enemies := f.enemies, score := f.score, gameState := GameOver)
      else
        var kept := Collect(f.player.box, w.coins);
        var fell := if f.player.box.top > Height then GameOver else w.gameState;
        var outcome := if f.player.X() >= WinX then Win else fell;
        World(f.player, f.enemies, kept, w.platforms,
              f.score + CoinAward * (|w.coins| - |kept|),
              Camera(f.player.X()), outcome)
  }

  /** The outcome of a tick taken while playing. With a positive player
      height the floor clamp keeps the player's top above the bottom of the
      screen, so the fall-off test never fires: a tick ends the game only
      through an enemy hit, and otherwise the win test decides. */
  lemma StepOutcome(w: World, inp: Input)
    requires w.gameState == Playing
    requires w.player.box.height > 0.0
    ensures Step(w, inp).gameState ==
              if inp.escape then Menu
              else if EnemyHit(w, inp) then GameOver
              else if Step(w, inp).player.X() >= WinX then Win
              else Playing
    ensures !inp.escape ==> Step(w, inp).player.box.top < Height
  {
    if !inp.escape {
      var p := Moved(w, inp);
      assert p.box.Bottom() <= Height;
      assert Fought(w, inp).player.box == p.box;
    }
  }

  /** A hit ends the tick at once: the coins, the camera and the state of
      the win test are those of the previous tick, and the run is over. Only
      contact with a moved enemy can cause one. */
  lemma HitEndsTick(w: World, inp: Input)
    requires EnemyHit(w, inp)
    ensures Step(w, inp).gameState == GameOver
    ensures Step(w, inp).coins == w.coins && Step(w, inp).cameraX == w.cameraX
    ensures exists i | 0 <= i < |w.enemies| :: Overlaps(Step(w, inp).player.box, Patrol(w.enemies[i]).box)
  {
    HitNeedsContact(Moved(w, inp), w.enemies, w.score);
  }

  /** Without a hit, exactly the coins the player overlaps at the end of the
      tick are gone, and each of them scored. */
  lemma CoinsPicked(w: World, inp: Input)
    requires !inp.escape && !EnemyHit(w, inp)
    ensures forall c :: c in Step(w, inp).coins <==> c in w.coins && !Overlaps(Step(w, inp).player.box, c)
    ensures Step(w, inp).coins == Collect(Step(w, inp).player.box, w.coins)
  {
  }

  /** The camera stays inside the world. */
  lemma CameraStaysInWorld(w: World, inp: Input)
    requires 0.0 <= w.cameraX <= MaxCamera
    ensures 0.0 <= Step(w, inp).cameraX <= MaxCamera
  {
  }

  /** The double-jump guard for a whole tick: unless the latch is open and
      the player stood on something, the jump key has no effect at all. */
  lemma JumpIgnoredUnlessGrounded(w: World, inp: Input)
    requires !(w.player.canJump && w.player.onGround)
    ensures Step(w, inp) == Step(w, inp.(jump := false))
  {
    JumpNeedsLatchAndGround(w.player, inp, w.platforms);
  }

  /** Consecutive ticks, as `update` calls `handle_gameplay` while the game
      is being played. */
  function Run(w: World, ins: seq<Input>): World
    decreases |ins|
  {
    if |ins| == 0 || w.gameState != Playing then w
    else Run(Step(w, ins[0]), ins[1..])
  }

  /** The score of a run never goes down. */
  lemma {:induction false} RunScoreMonotone(w: World, ins: seq<Input>)
    ensures Run(w, ins).score >= w.score
    decreases |ins|
  {
    if |ins| > 0 && w.gameState == Playing {
      RunScoreMonotone(Step(w, ins[0]), ins[1..]);
    }
  }

  function WithoutJumps(ins: seq<Input>): (out: seq<Input>)
    ensures |out| == |ins|
    ensures forall i | 0 <= i < |ins| :: out[i] == ins[i].(jump := false)
  {
    seq(|ins|, i requires 0 <= i < |ins| => ins[i].(jump := false))
  }

  /** The player stays in the air at the end of every tick of the run. */
  predicate StaysAirborne(w: World, ins: seq<Input>)
    decreases |ins|
  {
    || |ins| == 0
    || w.gameState != Playing
    || (!Step(w, ins[0]).player.onGround && StaysAirborne(Step(w, ins[0]), ins[1..]))
  }

  /** No double jump over any number of ticks: once the latch is closed,
      jump presses change nothing until the player is grounded again. */
  lemma {:induction false} AirborneJumpsIgnored(w: World, ins: seq<Input>)
    requires !w.player.canJump
    requires StaysAirborne(w, ins)
    ensures Run(w, ins) == Run(w, WithoutJumps(ins))
    decreases |ins|
  {
    if |ins| > 0 && w.gameState == Playing {
      JumpIgnoredUnlessGrounded(w, ins[0]);
      var next := Step(w, ins[0]);
      assert !next.player.canJump;
      assert WithoutJumps(ins)[1..] == WithoutJumps(ins[1..]);
      AirborneJumpsIgnored(next, ins[1..]);
    }
  }
}
